=== FILE: README.md ===
# stalker: argument parser and exit policy, in Dafny

stalker runs a shell command every time a watched path changes:
`stalker [options] <cmd> <file>`. This project models the two pieces of
`src/stalker.c` that decide anything.

- **The command-line scanner of `main`** (module `Cli`, `cli.dfy`). It scans `argv`
  from left to right. Until the first positional it recognises the exact
  spellings `-h/--help`, `-q/--quiet`, `-x/--halt` and `-v/--version`. The first
  argument that is none of these clears `interpret`. Every later argument is
  stored verbatim, even one that spells a flag. Exactly two positionals give a
  run configuration: the vector `sh -c <cmd>` and the path `<file>`. In `Parse`,
  every other ending is an exit with status 1: usage, version,
  "<cmd> required", "<file> required" or too many positionals. As written,
  the 129th positional is stored past the end of `args`, which is undefined
  behaviour, and the model stops there with `Overflow` (see "## Findings").
  `Parse` is a pure function over `seq<string>`. `Expected` is an independent
  declarative account of the same decision, and `ParseIsExpected` proves the two
  equal. `ParseLoop` is an imperative twin of the `for` loop over an array of
  `ArgsMax` entries. Its loop invariant, `interpret` holds exactly while
  `len == 0`, proves that the capacity check at line 142 can never fire.
- **The exit decision of `handle_poll`** (module `Poll`, `poll.dfy`). The parent
  blocks in `waitpid`, so each change event runs the command to completion before
  the next event is handled. A zero code keeps watching silently. A nonzero code
  is logged. With `halt` set, a nonzero code ends the watcher with that same code.
  `Watch` folds this decision over the exit codes of successive events.
  `WatchLoop` is the event loop as a method.
- **A whole run** (module `Session`, `session.dfy`) feeds the parsed `halt`
  policy into the watcher.

Some facts about the code that the model keeps:

- stalker has no verbose flag. `-v` is `--version`.
- stalker has no Idle/Running state and no "already running" notice. Two runs
  of the command never overlap only because `waitpid` blocks.
- With `-x`, the watcher exits with the child's own code, not with 1.
- A failed `execvp` is not reported as a fatal error. The forked child
  returns from the handler into `uv_run` (lines 85-87, 108) and keeps
  watching as a second watcher, while the parent stays blocked in `waitpid`
  (line 89) until that child ends.

## Model

| member | source | states |
|---|---|---|
| Cli.SpellingsDistinct | src/stalker.c:46-49 | `option` matches only the exact short or long spelling. Every flag starts with a dash, and no argument matches two of `-h/--help`, `-q/--quiet`, `-x/--halt` and `-v/--version`. |
| Cli.Step | src/stalker.c:121-149 | One loop iteration. It keeps the invariant that `interpret` holds exactly while nothing is stored, and that at most `ArgsMax` entries are stored. It never removes a stored argument. Every stop is an exit with status 1 or the out-of-bounds store. The store overflows only as written. As written, the capacity exit is never taken from a valid state. |
| Cli.Scan | src/stalker.c:116-150 | The whole loop keeps the same invariant. Stored arguments only grow. Every early stop is an exit with status 1 or an overflow. As written, the capacity exit at line 142 is unreachable. |
| Cli.ParseWith | src/stalker.c:114-163 | Under either placement of the capacity check, every exit of the parser has status 1. Only the program as written can overflow. Only the guarded version refuses with `ArgsExceeded`. A run's command is `sh -c` plus one string. |
| Cli.Lead | src/stalker.c:127-135 | Counts the leading `-q/--quiet/-x/--halt` arguments. Everything before the count is a policy flag; the argument at the count is not. |
| Cli.CollectPhase | src/stalker.c:123-149 | After the first positional, every argument is appended verbatim, whether or not it spells a flag, until the capacity is exceeded. |
| Cli.AbsorbFlag | src/stalker.c:127-135 | A leading policy flag is moved out of the arguments into the `quiet`/`halt` state. |
| Cli.InterpretPhase | src/stalker.c:123-149 | From the start state, the scan absorbs the leading policy flags. Next it stops on `-h`/`-v`, stores nothing if no argument remains, or stores the first positional and every argument after it. |
| Cli.ParseWithIsExpected | src/stalker.c:114-164 | Both placements of the check agree with the declarative account `Expected`. The only exception is too many positionals, where each placement's capacity result applies. |
| Cli.ParseIsExpected | src/stalker.c:114-164 | `Parse` equals `Expected`. Flags are recognised only before the first positional. A dash string that is not a flag is the command. No positional gives `CmdRequired`; a count other than two gives `FileRequired`. |
| Cli.NoArguments | src/stalker.c:114-155 | `argc == 1` is the usage exit with status 1. `argc == 0` skips the loop and reports the missing command. |
| Cli.AsWrittenOverflows | src/stalker.c:142-148 | The program as written differs from the corrected parser exactly where the corrected parser refuses too many positionals: there the program as written overflows. Its own capacity exit is never taken. |
| Cli.OverflowWitness | src/stalker.c:118-148 | A program name followed by 129 non-flag arguments makes the program as written store past `args[127]`. The corrected parser refuses the same input with status 1. |
| Cli.AsWrittenAgrees | src/stalker.c:116-149 | With at most `ArgsMax` arguments after the program name, the program as written and the corrected parser decide the same. |
| Cli.StopIsFinal | src/stalker.c:125-140 | Once the scan has stopped, appending arguments does not change its result. |
| Cli.LaterArgumentsIgnored | src/stalker.c:125-145 | The first `-h/--help` or `-v/--version` before any positional ends parsing with status 1, and so does the capacity refusal. Later arguments have no effect. |
| Cli.ParseConcludes | src/stalker.c:114-164 | Past the `argc == 1` check, the parser is the flag-absorbing scan followed by the checks at lines 152-164. |
| Cli.ConcludeWithFlag | src/stalker.c:127-135 | Policies already set when the scan begins change only a run configuration, never an exit. |
| Cli.PolicyFlagOnlySetsPolicy | src/stalker.c:127-135 | A `-q/--quiet` or `-x/--halt` before the rest of the arguments stores nothing. It changes the result only by switching its own policy on in a run configuration. |
| Cli.PolicyFlagIdempotent | src/stalker.c:127-135 | Giving a policy flag twice has the same effect as giving it once. |
| Cli.CommandThenPath | src/stalker.c:123-162 | A first positional that is not a flag becomes the command, even when it starts with a dash. The path after it is taken verbatim, even when it spells a flag. |
| Cli.RunConfiguration | src/stalker.c:157-164 | A run has exactly two positionals after the leading flags. The first positional is not a flag. The command is `["sh", "-c", first]` and the path is the second. `quiet`/`halt` are set exactly when their flag is among the leading flags. |
| Cli.ParseLoop | src/stalker.c:114-164 | The `for` loop over an array of `ArgsMax` entries returns what `Parse` and the program as written return, on every input where the program as written does not store out of bounds, whatever the number of flags. Its invariant that `interpret` holds exactly while `len == 0` makes the check at line 142 dead. |
| Poll.OnExit | src/stalker.c:94-100 | A zero code continues silently. A nonzero code is logged. The watcher terminates exactly when the code is nonzero and `halt` is set, and then with the child's own code, never 0. |
| Poll.Handle | src/stalker.c:88-100 | One event runs the command exactly once. Its code is appended to the log exactly when it is nonzero. The watcher exits exactly on a nonzero code under `halt`, and then with that code. |
| Poll.WatchFrom | src/stalker.c:88-100 | Folding events never runs more commands than there are events. It runs exactly one per event while it keeps watching. It only appends to the log. Without `halt` it never exits. An exit carries the nonzero code of the last event handled. |
| Poll.Failures | src/stalker.c:94-95 | The codes of the "exit: N" lines: no longer than the input, none of them 0, and a code appears in them exactly when it is a nonzero code of the input. |
| Poll.FailuresAppend | src/stalker.c:94-95 | The "exit: N" lines of two runs of events in turn are those of the first followed by those of the second, so the nonzero codes keep their order and multiplicity. |
| Poll.FirstFailure | src/stalker.c:94-98 | Position of the first nonzero code. Every code before it is 0. |
| Poll.WatchWithoutHalt | src/stalker.c:94-100 | Without `halt`, every event runs the command. Exactly the nonzero codes are logged, in order, and the watcher never exits by itself. |
| Poll.WatchWithHalt | src/stalker.c:94-100 | With `halt`, the command runs up to and including the first nonzero code. Only that code is logged, and the watcher exits with it. Later events are never run. |
| Poll.WatchAppend | src/stalker.c:89-100 | Events are handled strictly one after another. Once the watcher has exited, queued events change nothing. |
| Poll.WatchLoop | src/stalker.c:75-101 | The event loop calling the handler for each change computes `Watch`. |
| Session.Stalker | src/stalker.c:111-165 | Uses the parser with the capacity check before every store. A refused parse is an exit with status 1. The watcher exits by itself only under `halt`, and then with a nonzero code of the command. Otherwise one run per event. |
| Session.HaltExitStatus | src/stalker.c:94-100 | Under `-x` the process ends with the first nonzero code of the command. Without it, or with no failure, it keeps watching after running the command once per event. |

## Left out

- libuv polling and its loop (`uv_fs_poll_*`, `uv_run`, `INTERVAL`, lines 104-109): these are foreign library calls. Change events are modelled as the sequence of exit codes they lead to.
- Handle cleanup (`close_loop`, `handle_close_walk`, `MAKE_VALGRIND_HAPPY`): this is a walk over foreign handles.
- `fork`, `execvp` and `waitpid`, including the exit with status 1 when `fork` or `waitpid` fails, and a child that returns into `uv_run` after a failed `execvp` and becomes a second watcher: these are operating-system process calls, and the model has a single watcher.
- `WEXITSTATUS` decoding: the decoded code (0-255) is the input. For a child killed by a signal `WEXITSTATUS` is 0, so such a child is never logged and never halts the watcher under `-x` (line 94); the model sees it as a code 0.
- `redirect_stdout` and `signal(SIGPIPE, SIG_IGN)`: this is descriptor and signal plumbing. `quiet` is modelled as a parsed policy only, not as its effect on the child's output.
- The texts of the usage, version and error messages, and `VERSION`: these are result tags (`ExitReason`), not strings.
- The terminating null entry `cmd[3]`: the model's command vector holds just the three strings.
- Session.Stalker: composes the corrected `Cli.Parse`. With more than 128 positionals it reports the `ArgsExceeded` exit, where the program as written stores past the end of `args` (see "## Findings" and `Cli.AsWrittenOverflows`).
- Cli.ParseLoop: requires `ParseAsWritten(argv) != Overflow`, that is, at most `ArgsMax` positionals. On the other inputs the program as written stores out of bounds at line 148, which `ParseAsWritten` and `OverflowWitness` cover.

## Findings

| source | as written | input that shows it | evidently intended | confidence | as-written member | corrected member |
|---|---|---|---|---|---|---|
| src/stalker.c:142-148 | The `len == ARGS_MAX` check is only reached while `interpret` is set, and that is only while `len == 0`, so it never fires. After the first positional, `args[len++]` is written with no bound. | A program name followed by 129 arguments that are not flags: the 129th is stored at `args[128]`, past the end of the 128-entry array. | The check guards every store, so that more than 128 positionals end with "number of arguments exceeded" and status 1. | high; not executed | Cli.OverflowWitness | Cli.ParseIsExpected |

=== FILE: cli.dfy ===
/**
 The command-line scanner of stalker's `main`.

 `main` walks `argv` left to right. While `interpret` is set it recognises
 the flags `-h/--help`, `-q/--quiet`, `-x/--halt` and `-v/--version`; the
 first argument that is none of them is the first positional, which clears
 `interpret`, and from then on every argument is stored verbatim in the
 fixed array `args` of `ArgsMax` entries. After the loop exactly two
 positionals are accepted: the shell command and the watched path.

 The capacity check in the loop is only reached while `interpret` is set,
 and `interpret` is set exactly while nothing has been stored yet, so the
 check never fires and the store after the first positional is unguarded.
 The model keeps both placements of the check apart (`Guard`): the program
 as written, where a positional past the capacity is a write out of bounds
 (`Overflow`), and the check placed before every store, where it is refused
 with `ArgsExceeded`. `Parse` is the second; `ParseAsWritten` the first.
 */
module Cli {

  /** Capacity of the `args` array. */
  const ArgsMax: nat := 128

  /** Status of every exit the parser takes: `usage()`, the version exit and
      the capacity exit all end the process with status 1. */
  const FailureStatus: int := 1

  /** `option`: an argument is a flag only when it is spelled exactly as the
      flag's short or long form. */
  predicate IsOption(small: string, large: string, arg: string) {
    arg == small || arg == large
  }

  predicate IsHelp(arg: string) { IsOption("-h", "--help", arg) }
  predicate IsQuiet(arg: string) { IsOption("-q", "--quiet", arg) }
  predicate IsHalt(arg: string) { IsOption("-x", "--halt", arg) }
  predicate IsVersion(arg: string) { IsOption("-v", "--version", arg) }

  /** The flags that only set a policy and let scanning go on. */
  predicate IsPolicyFlag(arg: string) { IsQuiet(arg) || IsHalt(arg) }

  predicate IsFlag(arg: string) {
    IsHelp(arg) || IsPolicyFlag(arg) || IsVersion(arg)
  }

  /** Every flag is a dash string of at least two characters, and no
      argument is spelled as two different flags. */
  lemma SpellingsDistinct(arg: string)
    ensures IsFlag(arg) ==> |arg| >= 2 && arg[0] == '-'
    ensures !(IsHelp(arg) && IsPolicyFlag(arg)) && !(IsHelp(arg) && IsVersion(arg))
    ensures !(IsQuiet(arg) && IsHalt(arg)) && !(IsPolicyFlag(arg) && IsVersion(arg))
  {
  }

  /** Whether a run of flags switches `quiet` (resp. `halt`) on. */
  predicate SetsQuiet(flags: seq<string>) { "-q" in flags || "--quiet" in flags }
  predicate SetsHalt(flags: seq<string>) { "-x" in flags || "--halt" in flags }

  /** Why the parser ended the process instead of starting the watcher. */
  datatype ExitReason =
    | Usage         // `-h`/`--help`, or no argument after the program name
    | ShowVersion   // `-v`/`--version`
    | CmdRequired   // no positional at all
    | FileRequired  // a number of positionals other than two
    | ArgsExceeded  // more positionals than `args` can hold

  /** What the watcher is started with: the argument vector handed to
      `execvp` and the path handed to the poller, with the two policies. */
  datatype Config = Config(cmd: seq<string>, path: string, quiet: bool, halt: bool)

  datatype ParseResult =
    | Exit(reason: ExitReason, status: int)
    | Run(config: Config)
      /** A positional is stored past the end of `args`: undefined behaviour,
          not an exit the program chooses. */
    | Overflow

  /** Where the capacity check sits. */
  datatype Guard =
    | WhileInterpreting  // as written: only on the path that interprets flags
    | BeforeEveryWrite   // in front of every store into `args`

  /** The loop's variables: `interpret`, the stored prefix `args[..len]`, and
      the two policy globals. */
  datatype ScanState = ScanState(interpret: bool, args: seq<string>, quiet: bool, halt: bool)

  const Start := ScanState(true, [], false, false)

  /** The loop invariant of `main`: `interpret` holds exactly while nothing
      has been stored, and no more than `ArgsMax` entries are stored. */
  predicate Valid(st: ScanState) {
    |st.args| <= ArgsMax && (st.interpret <==> st.args == [])
  }

  datatype StepResult = Next(st: ScanState) | Stop(result: ParseResult)

  /** The result of the capacity condition under each placement of the check. */
  function CapacityStop(guard: Guard): ParseResult {
    match guard
    case WhileInterpreting => Overflow
    case BeforeEveryWrite => Exit(ArgsExceeded, FailureStatus)
  }

  /** `args[len++] = arg; interpret = 0;` on an array of `ArgsMax` entries. */
  function Store(st: ScanState, arg: string): StepResult {
    if |st.args| == ArgsMax then Stop(Overflow)
    else Next(ScanState(false, st.args + [arg], st.quiet, st.halt))
  }

  /** One iteration of the `for` loop over `argv`. */
  function Step(guard: Guard, st: ScanState, arg: string): (r: StepResult)
    ensures Valid(st) && r.Next? ==> Valid(r.st)
    ensures r.Next? ==> st.args <= r.st.args
    ensures r.Stop? ==> r.result == Overflow || (r.result.Exit? && r.result.status == FailureStatus)
    ensures r.Stop? && r.result == Overflow ==> guard.WhileInterpreting?
    ensures Valid(st) && r == Stop(Exit(ArgsExceeded, FailureStatus)) ==> guard.BeforeEveryWrite?
  {
    if !st.interpret then
      if guard.BeforeEveryWrite? && |st.args| == ArgsMax then Stop(Exit(ArgsExceeded, FailureStatus))
      else Store(st, arg)
    else if IsHelp(arg) then Stop(Exit(Usage, FailureStatus))
    else if IsQuiet(arg) then Next(st.(quiet := true))
    else if IsHalt(arg) then Next(st.(halt := true))
    else if IsVersion(arg) then Stop(Exit(ShowVersion, FailureStatus))
    else if |st.args| == ArgsMax then Stop(Exit(ArgsExceeded, FailureStatus))
    else Store(st, arg)
  }

  /** The whole loop over the arguments `rest`, from state `st`. */
  function Scan(guard: Guard, rest: seq<string>, st: ScanState): (r: StepResult)
    ensures Valid(st) && r.Next? ==> Valid(r.st)
    ensures r.Next? ==> st.args <= r.st.args
    ensures r.Stop? ==> r.result == Overflow || (r.result.Exit? && r.result.status == FailureStatus)
    ensures r.Stop? && r.result == Overflow ==> guard.WhileInterpreting?
    ensures Valid(st) && r == Stop(Exit(ArgsExceeded, FailureStatus)) ==> guard.BeforeEveryWrite?
    decreases |rest|
  {
    if rest == [] then Next(st)
    else
      match Step(guard, st, rest[0])
      case Stop(res) => Stop(res)
      case Next(st') => Scan(guard, rest[1..], st')
  }

  /** The checks after the loop, and the assignment of `cmd[2]`. */
  function Finish(st: ScanState): ParseResult {
    if |st.args| == 0 then Exit(CmdRequired, FailureStatus)
    else if |st.args| != 2 then Exit(FileRequired, FailureStatus)
    else Run(Config(["sh", "-c", st.args[0]], st.args[1], st.quiet, st.halt))
  }

  /** The arguments after the program name (none when `argc` is 0). */
  function Tail(argv: seq<string>): seq<string> {
    if |argv| == 0 then [] else argv[1..]
  }

  /** `main` from its entry to the call of `run_loop`. */
  function ParseWith(guard: Guard, argv: seq<string>): (r: ParseResult)
    ensures r.Exit? ==> r.status == FailureStatus
    ensures r == Overflow ==> guard.WhileInterpreting?
    ensures r.Exit? && r.reason == ArgsExceeded ==> guard.BeforeEveryWrite?
    ensures r.Run? ==> |r.config.cmd| == 3 && r.config.cmd[..2] == ["sh", "-c"]
  {
    if |argv| == 1 then Exit(Usage, FailureStatus)
    else Conclude(Scan(guard, Tail(argv), Start))
  }

  /** The parser with the capacity check in front of every store. */
  function Parse(argv: seq<string>): ParseResult {
    ParseWith(BeforeEveryWrite, argv)
  }

  /** The parser as written. */
  function ParseAsWritten(argv: seq<string>): ParseResult {
    ParseWith(WhileInterpreting, argv)
  }

  /** Number of policy flags at the front of `rest`. */
  function Lead(rest: seq<string>): (k: nat)
    ensures k <= |rest|
    ensures forall i :: 0 <= i < k ==> IsPolicyFlag(rest[i])
    ensures k < |rest| ==> !IsPolicyFlag(rest[k])
  {
    if rest == [] || !IsPolicyFlag(rest[0]) then 0 else 1 + Lead(rest[1..])
  }

  /** A declarative account of what the parser decides: the policy flags in
      front, then either nothing, a stopping flag, or the first positional
      followed by everything after it. */
  function Expected(argv: seq<string>): ParseResult {
    if |argv| == 1 then Exit(Usage, FailureStatus)
    else
      var rest := Tail(argv);
      var k := Lead(rest);
      if k == |rest| then Exit(CmdRequired, FailureStatus)
      else if IsHelp(rest[k]) then Exit(Usage, FailureStatus)
      else if IsVersion(rest[k]) then Exit(ShowVersion, FailureStatus)
      else
        var positionals := rest[k..];
        if |positionals| > ArgsMax then Exit(ArgsExceeded, FailureStatus)
        else if |positionals| != 2 then Exit(FileRequired, FailureStatus)
        else Run(Config(["sh", "-c", positionals[0]], positionals[1],
                        SetsQuiet(rest[..k]), SetsHalt(rest[..k])))
  }

  /** After the first positional every argument is stored as it is, flag or
      not, until the capacity is reached. */
  lemma {:induction false} CollectPhase(guard: Guard, rest: seq<string>, st: ScanState)
    requires !st.interpret && |st.args| <= ArgsMax
    ensures Scan(guard, rest, st) ==
      if |st.args| + |rest| <= ArgsMax then Next(st.(args := st.args + rest))
      else Stop(CapacityStop(guard))
    decreases |rest|
  {
    if rest == [] {
      assert st.args + rest == st.args;
    } else if |st.args| == ArgsMax {
    } else {
      var st' := ScanState(false, st.args + [rest[0]], st.quiet, st.halt);
      assert Step(guard, st, rest[0]) == Next(st');
      CollectPhase(guard, rest[1..], st');
      assert st'.args + rest[1..] == st.args + rest;
    }
  }

  /** What the scan from an interpreting state comes to: the policy flags
      in front are absorbed, a stopping flag ends the scan, and the first
      positional switches to `CollectPhase`. */
  function Absorbed(guard: Guard, rest: seq<string>, quiet: bool, halt: bool): StepResult {
    var k := Lead(rest);
    var quiet' := quiet || SetsQuiet(rest[..k]);
    var halt' := halt || SetsHalt(rest[..k]);
    if k == |rest| then Next(ScanState(true, [], quiet', halt'))
    else if IsHelp(rest[k]) then Stop(Exit(Usage, FailureStatus))
    else if IsVersion(rest[k]) then Stop(Exit(ShowVersion, FailureStatus))
    else if |rest| - k <= ArgsMax then Next(ScanState(false, rest[k..], quiet', halt'))
    else Stop(CapacityStop(guard))
  }

  /** Absorbing one policy flag moves it from the arguments into the state. */
  lemma AbsorbFlag(guard: Guard, rest: seq<string>, quiet: bool, halt: bool)
    requires rest != [] && IsPolicyFlag(rest[0])
    ensures Absorbed(guard, rest, quiet, halt)
         == Absorbed(guard, rest[1..], quiet || IsQuiet(rest[0]), halt || IsHalt(rest[0]))
  {
  }

  /** Before the first positional the scan is `Absorbed`. */
  lemma {:induction false} InterpretPhase(guard: Guard, rest: seq<string>, st: ScanState)
    requires st.interpret && st.args == []
    ensures Scan(guard, rest, st) == Absorbed(guard, rest, st.quiet, st.halt)
    decreases |rest|
  {
    if rest == [] {
      assert rest[..0] == [];
    } else if IsPolicyFlag(rest[0]) {
      var st' := if IsQuiet(rest[0]) then st.(quiet := true) else st.(halt := true);
      assert Step(guard, st, rest[0]) == Next(st');
      InterpretPhase(guard, rest[1..], st');
      AbsorbFlag(guard, rest, st.quiet, st.halt);
    } else if IsHelp(rest[0]) || IsVersion(rest[0]) {
      assert rest[..0] == [];
    } else {
      var st' := ScanState(false, [rest[0]], st.quiet, st.halt);
      assert Step(guard, st, rest[0]) == Next(st');
      CollectPhase(guard, rest[1..], st');
      assert [rest[0]] + rest[1..] == rest;
      assert rest[..0] == [] && rest[0..] == rest;
    }
  }

  /** Both placements of the check agree with `Expected`, except where it
      refuses too many positionals: there the program as written overflows. */
  lemma ParseWithIsExpected(guard: Guard, argv: seq<string>)
    ensures ParseWith(guard, argv) ==
      if Expected(argv) == Exit(ArgsExceeded, FailureStatus) then CapacityStop(guard)
      else Expected(argv)
  {
    if |argv| != 1 {
      InterpretPhase(guard, Tail(argv), Start);
    }
  }

  /** The parser decides exactly as the declarative account says. */
  lemma ParseIsExpected(argv: seq<string>)
    ensures Parse(argv) == Expected(argv)
  {
    ParseWithIsExpected(BeforeEveryWrite, argv);
  }

  /** With no argument after the program name the usage text is printed and
      the process exits with status 1; with no program name either, the loop
      does not run and the missing command is reported. */
  lemma NoArguments(prog: string)
    ensures Parse([prog]) == Exit(Usage, FailureStatus)
    ensures Parse([]) == Exit(CmdRequired, FailureStatus)
  {
  }

  /** The program as written and the corrected parser differ exactly where
      the latter refuses too many positionals, and the capacity exit of the
      program as written can never be taken. */
  lemma AsWrittenOverflows(argv: seq<string>)
    ensures ParseAsWritten(argv) == Overflow <==> Parse(argv) == Exit(ArgsExceeded, FailureStatus)
    ensures ParseAsWritten(argv) != Overflow ==> ParseAsWritten(argv) == Parse(argv)
    ensures ParseAsWritten(argv) != Exit(ArgsExceeded, FailureStatus)
  {
    ParseWithIsExpected(WhileInterpreting, argv);
    ParseWithIsExpected(BeforeEveryWrite, argv);
  }

  /** A program name followed by 129 copies of the same command string: the
      129th is written to `args[128]`, one past the end. */
  lemma OverflowWitness(prog: string, arg: string)
    requires !IsFlag(arg)
    ensures ParseAsWritten([prog] + seq(ArgsMax + 1, _ => arg)) == Overflow
    ensures Parse([prog] + seq(ArgsMax + 1, _ => arg)) == Exit(ArgsExceeded, FailureStatus)
  {
    var argv := [prog] + seq(ArgsMax + 1, _ => arg);
    var rest := Tail(argv);
    assert rest == seq(ArgsMax + 1, _ => arg);
    assert Lead(rest) == 0;
    ParseIsExpected(argv);
    AsWrittenOverflows(argv);
  }

  /** Within the capacity the program as written is the corrected parser. */
  lemma AsWrittenAgrees(argv: seq<string>)
    requires |argv| - 1 <= ArgsMax
    ensures ParseAsWritten(argv) == Parse(argv)
  {
    ParseWithIsExpected(WhileInterpreting, argv);
    ParseWithIsExpected(BeforeEveryWrite, argv);
  }

  /** Once the scan has stopped, later arguments are never looked at. */
  lemma {:induction false} StopIsFinal(guard: Guard, rest: seq<string>, extra: seq<string>, st: ScanState)
    requires Scan(guard, rest, st).Stop?
    ensures Scan(guard, rest + extra, st) == Scan(guard, rest, st)
    decreases |rest|
  {
    assert (rest + extra)[0] == rest[0];
    assert (rest + extra)[1..] == rest[1..] + extra;
    match Step(guard, st, rest[0])
    case Stop(_) =>
    case Next(st') => StopIsFinal(guard, rest[1..], extra, st');
  }

  /** The first `-h/--help` or `-v/--version` before any positional ends
      parsing, and so does the refusal of too many positionals: appending
      arguments changes nothing. */
  lemma LaterArgumentsIgnored(argv: seq<string>, extra: seq<string>)
    requires |argv| >= 2
    requires Parse(argv).Exit? && Parse(argv).reason in {Usage, ShowVersion, ArgsExceeded}
    ensures Parse(argv + extra) == Parse(argv)
  {
    assert Tail(argv + extra) == Tail(argv) + extra;
    StopIsFinal(BeforeEveryWrite, Tail(argv), extra, Start);
  }

  /** `WithFlag(r, f)` is `r` with the policy that flag `f` sets switched on. */
  function WithFlag(r: ParseResult, f: string): ParseResult {
    if r.Run? then
      Run(r.config.(quiet := r.config.quiet || IsQuiet(f), halt := r.config.halt || IsHalt(f)))
    else r
  }

  /** The end of `main` after the scan: an early exit, or the checks of `Finish`. */
  function Conclude(s: StepResult): ParseResult {
    match s
    case Stop(res) => res
    case Next(st) => Finish(st)
  }

  /** The parser, once the argument count is past the first check, is the
      interpreting scan followed by its conclusion. */
  lemma ParseConcludes(argv: seq<string>)
    requires |argv| != 1
    ensures Parse(argv) == Conclude(Absorbed(BeforeEveryWrite, Tail(argv), false, false))
  {
    InterpretPhase(BeforeEveryWrite, Tail(argv), Start);
  }

  /** Policies already set when the scan begins show up only in a run
      configuration. */
  lemma ConcludeWithFlag(rest: seq<string>, f: string)
    ensures Conclude(Absorbed(BeforeEveryWrite, rest, IsQuiet(f), IsHalt(f)))
         == WithFlag(Conclude(Absorbed(BeforeEveryWrite, rest, false, false)), f)
  {
  }

  /** A policy flag in front of at least one further argument stores
      nothing and changes nothing but its own policy. */
  lemma PolicyFlagOnlySetsPolicy(prog: string, f: string, rest: seq<string>)
    requires IsPolicyFlag(f) && rest != []
    ensures Parse([prog, f] + rest) == WithFlag(Parse([prog] + rest), f)
  {
    var argv := [prog, f] + rest;
    assert Tail(argv) == [f] + rest;
    assert Tail([prog] + rest) == rest;
    assert ([f] + rest)[0] == f && ([f] + rest)[1..] == rest;
    ParseConcludes(argv);
    AbsorbFlag(BeforeEveryWrite, [f] + rest, false, false);
    ParseConcludes([prog] + rest);
    ConcludeWithFlag(rest, f);
  }

  /** Repeating a policy flag has the effect of giving it once. */
  lemma PolicyFlagIdempotent(prog: string, f: string, rest: seq<string>)
    requires IsPolicyFlag(f)
    ensures Parse([prog, f, f] + rest) == Parse([prog, f] + rest)
  {
    if rest == [] {
      ParseIsExpected([prog, f, f]);
      ParseIsExpected([prog, f]);
      assert Tail([prog, f, f] + rest) == [f, f];
      assert Tail([prog, f] + rest) == [f];
    } else {
      assert [prog, f, f] + rest == [prog, f] + ([f] + rest);
      PolicyFlagOnlySetsPolicy(prog, f, [f] + rest);
      assert [prog] + ([f] + rest) == [prog, f] + rest;
      PolicyFlagOnlySetsPolicy(prog, f, rest);
    }
  }

  /** A first positional that spells no flag becomes the command, even when
      it starts with a dash, and the path after it is taken verbatim even
      when it spells a flag. */
  lemma CommandThenPath(prog: string, cmd: string, path: string)
    requires !IsFlag(cmd)
    ensures Parse([prog, cmd, path]) == Run(Config(["sh", "-c", cmd], path, false, false))
  {
    ParseIsExpected([prog, cmd, path]);
    assert Tail([prog, cmd, path]) == [cmd, path];
    assert Lead([cmd, path]) == 0;
    assert [cmd, path][..0] == [];
  }

  /** A run configuration carries the first positional as the shell command
      and the second as the path, with the policies of the flags in front. */
  lemma RunConfiguration(argv: seq<string>)
    requires Parse(argv).Run?
    ensures
      var rest := Tail(argv);
      var k := Lead(rest);
      var c := Parse(argv).config;
      && |rest| == k + 2
      && !IsFlag(rest[k])
      && c.cmd == ["sh", "-c", rest[k]]
      && c.path == rest[k + 1]
      && (c.quiet <==> exists i :: 0 <= i < k && IsQuiet(rest[i]))
      && (c.halt <==> exists i :: 0 <= i < k && IsHalt(rest[i]))
  {
    ParseIsExpected(argv);
    var rest := Tail(argv);
    var k := Lead(rest);
    var flags := rest[..k];
    assert forall i :: 0 <= i < k ==> flags[i] == rest[i];
  }

  /** The loop of `main` as written, over an array of `ArgsMax` entries.
      The precondition excludes exactly the inputs on which the program as
      written stores past the end of `args` (more than `ArgsMax`
      positionals); policy flags and stopping flags are never stored, so any
      number of them is admitted. The invariant that `interpret` holds
      exactly while `len == 0` makes the capacity check at line 142 dead. */
  method ParseLoop(argv: seq<string>) returns (r: ParseResult)
    requires ParseAsWritten(argv) != Overflow
    ensures r == ParseAsWritten(argv)
    ensures r == Parse(argv)
    ensures r != Exit(ArgsExceeded, FailureStatus)
  {
    AsWrittenOverflows(argv);
    if |argv| == 1 {
      return Exit(Usage, FailureStatus);
    }
    var rest := Tail(argv);
    var args := new string[ArgsMax];
    var len := 0;
    var interpret := true;
    var quiet, halt := false, false;
    // `i` here is one less than the loop index over `argv`.
    var i := 0;
    while i < |rest|
      invariant 0 <= i <= |rest|
      invariant len <= ArgsMax
      invariant interpret <==> len == 0
      invariant Scan(WhileInterpreting, rest[i..], ScanState(interpret, args[..len], quiet, halt))
             == Scan(WhileInterpreting, rest, Start)
    {
      var arg := rest[i];
      assert rest[i..][0] == arg && rest[i..][1..] == rest[i + 1..];
      if interpret {
        if IsHelp(arg) {
          return Exit(Usage, FailureStatus);
        }
        if IsQuiet(arg) {
          quiet := true;
          i := i + 1;
          continue;
        }
        if IsHalt(arg) {
          halt := true;
          i := i + 1;
          continue;
        }
        if IsVersion(arg) {
          return Exit(ShowVersion, FailureStatus);
        }
        // Line 142: never taken, since `interpret` implies `len == 0`.
        if len == ArgsMax {
          assert false;
        }
      }
      // A store at `len == ArgsMax` is the overflow the precondition excludes.
      if len == ArgsMax {
        assert false;
      }
      ghost var stored := args[..len];
      args[len] := arg;
      len := len + 1;
      assert args[..len] == stored + [arg];
      interpret := false;
      i := i + 1;
    }
    assert rest[i..] == [];
    if len == 0 {
      return Exit(CmdRequired, FailureStatus);
    }
    if len != 2 {
      return Exit(FileRequired, FailureStatus);
    }
    r := Run(Config(["sh", "-c", args[0]], args[1], quiet, halt));
  }
}

=== FILE: poll.dfy ===
/**
 What stalker does with each change of the watched path: `handle_poll` runs
 the command to completion (the parent blocks in `waitpid`), then decides on
 the child's decoded exit code. Zero: keep watching silently. Nonzero: write
 an "exit: N" line, then keep watching, or, with `halt`, end the whole
 watcher with that same code.

 Because the command runs to completion inside the handler, the change
 events are handled strictly one after another; the watcher is the left fold
 of that decision over the sequence of exit codes, one code per event.
 */
module Poll {

  /** An exit code as `WEXITSTATUS` decodes it. */
  type ExitCode = c: int | 0 <= c < 256

  datatype Option<T> = None | Some(value: T)

  datatype Decision =
    | Continue(logged: bool)     // keep watching; `logged` when "exit: N" is written
    | Terminate(status: ExitCode) // "exit: N" is written and the watcher exits with `status`

  /** The decision after one run of the command. */
  function OnExit(code: ExitCode, halt: bool): (d: Decision)
    ensures code == 0 ==> d == Continue(false)
    ensures code != 0 && !halt ==> d == Continue(true)
    ensures d.Terminate? <==> code != 0 && halt
    ensures d.Terminate? ==> d.status == code && d.status != 0
  {
    if code == 0 then Continue(false)
    else if halt then Terminate(code)
    else Continue(true)
  }

  /** What the watcher has done so far: how many times it ran the command,
      the codes it logged, and the status it exited with, once it has. */
  datatype Watcher = Watcher(runs: nat, log: seq<ExitCode>, exited: Option<ExitCode>)

  const Initial := Watcher(0, [], None)

  /** One change event: one run of the command, then `OnExit`. */
  function Handle(w: Watcher, code: ExitCode, halt: bool): (w': Watcher)
    ensures w'.runs == w.runs + 1
    ensures w'.log == w.log + [code] || (w'.log == w.log && code == 0)
    ensures w'.exited.Some? <==> halt && code != 0
    ensures w'.exited.Some? ==> w'.exited.value == code
    ensures code == 0 ==> w'.log == w.log
  {
    match OnExit(code, halt)
    case Continue(logged) => Watcher(w.runs + 1, if logged then w.log + [code] else w.log, None)
    case Terminate(status) => Watcher(w.runs + 1, w.log + [code], Some(status))
  }

  /** The events `codes` delivered to a watcher in state `w`; once it has
      exited no further event is handled. */
  function WatchFrom(w: Watcher, codes: seq<ExitCode>, halt: bool): (w': Watcher)
    ensures w.exited.Some? ==> w' == w
    ensures w.runs <= w'.runs <= w.runs + |codes|
    ensures w.log <= w'.log
    ensures w'.exited.None? ==> w'.runs == w.runs + |codes|
    ensures !halt && w.exited.None? ==> w'.exited.None?
    ensures w.exited.None? && w'.exited.Some? ==>
      w'.runs > w.runs && w'.exited.value == codes[w'.runs - w.runs - 1] != 0
    decreases |codes|
  {
    if w.exited.Some? || codes == [] then w
    else WatchFrom(Handle(w, codes[0], halt), codes[1..], halt)
  }

  /** The watcher from its start over the exit codes of successive events. */
  function Watch(codes: seq<ExitCode>, halt: bool): Watcher {
    WatchFrom(Initial, codes, halt)
  }

  /** The nonzero codes of `codes`, in order. */
  function Failures(codes: seq<ExitCode>): (f: seq<ExitCode>)
    ensures |f| <= |codes|
    ensures forall i :: 0 <= i < |f| ==> f[i] != 0
    ensures forall c :: c in f <==> c in codes && c != 0
  {
    if codes == [] then []
    else (if codes[0] != 0 then [codes[0]] else []) + Failures(codes[1..])
  }

  /** Filtering distributes over concatenation: the nonzero codes keep their
      order and multiplicity. */
  lemma {:induction false} FailuresAppend(a: seq<ExitCode>, b: seq<ExitCode>)
    ensures Failures(a + b) == Failures(a) + Failures(b)
    decreases |a|
  {
    if a == [] {
      assert a + b == b;
    } else {
      assert (a + b)[0] == a[0];
      assert (a + b)[1..] == a[1..] + b;
      FailuresAppend(a[1..], b);
      var head := if a[0] != 0 then [a[0]] else [];
      assert head + (Failures(a[1..]) + Failures(b)) == (head + Failures(a[1..])) + Failures(b);
    }
  }

  /** Position of the first nonzero code, `|codes|` when there is none. */
  function FirstFailure(codes: seq<ExitCode>): (i: nat)
    ensures i <= |codes|
    ensures forall j :: 0 <= j < i ==> codes[j] == 0
    ensures i < |codes| ==> codes[i] != 0
  {
    if codes == [] || codes[0] != 0 then 0 else 1 + FirstFailure(codes[1..])
  }

  lemma {:induction false} WatchFromWithoutHalt(w: Watcher, codes: seq<ExitCode>)
    requires w.exited.None?
    ensures WatchFrom(w, codes, false) == Watcher(w.runs + |codes|, w.log + Failures(codes), None)
    decreases |codes|
  {
    if codes == [] {
      assert w.log + [] == w.log;
    } else {
      var w' := Handle(w, codes[0], false);
      WatchFromWithoutHalt(w', codes[1..]);
      var head := if codes[0] != 0 then [codes[0]] else [];
      assert w'.log == w.log + head;
      assert w.log + head + Failures(codes[1..]) == w.log + (head + Failures(codes[1..]));
    }
  }

  /** Without `halt` every event runs the command, every nonzero code is
      logged in order, and the watcher never exits on its own. */
  lemma WatchWithoutHalt(codes: seq<ExitCode>)
    ensures Watch(codes, false) == Watcher(|codes|, Failures(codes), None)
  {
    WatchFromWithoutHalt(Initial, codes);
  }

  lemma {:induction false} WatchFromWithHalt(w: Watcher, codes: seq<ExitCode>)
    requires w.exited.None?
    ensures
      var i := FirstFailure(codes);
      WatchFrom(w, codes, true) ==
        if i == |codes| then Watcher(w.runs + |codes|, w.log, None)
        else Watcher(w.runs + i + 1, w.log + [codes[i]], Some(codes[i]))
    decreases |codes|
  {
    if codes != [] && codes[0] == 0 {
      WatchFromWithHalt(Handle(w, codes[0], true), codes[1..]);
    }
  }

  /** With `halt` the watcher runs the command until the first nonzero code,
      logs that code alone, and exits with it; events after it are not run. */
  lemma WatchWithHalt(codes: seq<ExitCode>)
    ensures
      var i := FirstFailure(codes);
      Watch(codes, true) ==
        if i == |codes| then Watcher(|codes|, [], None)
        else Watcher(i + 1, [codes[i]], Some(codes[i]))
  {
    WatchFromWithHalt(Initial, codes);
  }

  lemma {:induction false} WatchFromAppend(w: Watcher, codes: seq<ExitCode>, more: seq<ExitCode>, halt: bool)
    ensures WatchFrom(w, codes + more, halt) == WatchFrom(WatchFrom(w, codes, halt), more, halt)
    decreases |codes|
  {
    if w.exited.None? && codes != [] {
      assert (codes + more)[0] == codes[0];
      assert (codes + more)[1..] == codes[1..] + more;
      WatchFromAppend(Handle(w, codes[0], halt), codes[1..], more, halt);
    } else if codes == [] {
      assert codes + more == more;
    }
  }

  /** Events are handled one after another: watching `codes` then `more` is
      watching them together, and once the watcher has exited, events still
      queued change nothing. */
  lemma WatchAppend(codes: seq<ExitCode>, more: seq<ExitCode>, halt: bool)
    ensures Watch(codes + more, halt) == WatchFrom(Watch(codes, halt), more, halt)
    ensures Watch(codes, halt).exited.Some? ==> Watch(codes + more, halt) == Watch(codes, halt)
  {
    WatchFromAppend(Initial, codes, more, halt);
  }

  /** The event loop delivering one change after another to `handle_poll`. */
  method WatchLoop(codes: seq<ExitCode>, halt: bool) returns (w: Watcher)
    ensures w == Watch(codes, halt)
  {
    w := Initial;
    var i := 0;
    while i < |codes|
      invariant 0 <= i <= |codes|
      invariant w.exited.None?
      invariant WatchFrom(w, codes[i..], halt) == Watch(codes, halt)
    {
      assert codes[i..][0] == codes[i] && codes[i..][1..] == codes[i + 1..];
      var code := codes[i];
      var runs := w.runs + 1;
      match OnExit(code, halt) {
        case Continue(logged) =>
          w := Watcher(runs, if logged then w.log + [code] else w.log, None);
        case Terminate(status) =>
          return Watcher(runs, w.log + [code], Some(status));
      }
      i := i + 1;
    }
  }
}

=== FILE: session.dfy ===
/**
 A whole run of stalker: the arguments are parsed, and on success the
 watcher is driven by the exit codes of the command's successive runs, with
 the `halt` policy the flags selected.
 */
module Session {
  import Cli
  import Poll

  datatype Outcome =
      /** The parser ended the process. */
    | Refused(result: Cli.ParseResult)
      /** The watcher exited on its own with `status`. */
    | Exited(config: Cli.Config, status: Poll.ExitCode)
      /** The watcher is still running after `runs` runs of the command. */
    | Watching(config: Cli.Config, runs: nat)

  /** The process from `main` on, given the exit codes of the command's runs.
      It uses the parser with the capacity check before every store; the
      program as written differs only beyond `Cli.ArgsMax` positionals, where
      it overflows (`Cli.AsWrittenOverflows`). */
  function Stalker(argv: seq<string>, codes: seq<Poll.ExitCode>): (o: Outcome)
    ensures o.Refused? ==> o.result.Exit? && o.result.status == Cli.FailureStatus
    ensures o.Refused? <==> !Cli.Parse(argv).Run?
    ensures o.Exited? ==> o.config.halt && o.status != 0 && o.status in codes
    ensures o.Watching? ==> o.runs == |codes|
  {
    match Cli.Parse(argv)
    case Run(config) =>
      var w := Poll.Watch(codes, config.halt);
      if w.exited.Some? then Exited(config, w.exited.value) else Watching(config, w.runs)
    case r => Refused(r)
  }

  /** Under `-x/--halt` the process ends with the first nonzero code of the
      command, not with a fixed status; without it the process never ends by
      itself. */
  lemma HaltExitStatus(argv: seq<string>, codes: seq<Poll.ExitCode>)
    requires Cli.Parse(argv).Run?
    ensures
      var config := Cli.Parse(argv).config;
      var i := Poll.FirstFailure(codes);
      Stalker(argv, codes) ==
        if config.halt && i < |codes| then Exited(config, codes[i])
        else Watching(config, |codes|)
  {
    Poll.WatchWithHalt(codes);
    Poll.WatchWithoutHalt(codes);
  }
}
